=== FILE: README.md ===
# Resume job store — a Dafny model

This project models the data layer of a small resume web application
(`database.py`). The application keeps jobs and their bullet points in two
SQLite tables, `jobs` and `job_points`. It offers five operations on them:
add a job, add a bullet point, compute the next bullet order number, delete
one point, and delete a job together with its points. It also has a
read-side query, `get_all_jobs`, that lists the jobs by descending
`start_date` text, which is newest first for canonical `'YYYY-MM'` texts, with a
rank, their bullet points and the first three of those as "resume points".
Finally, `format_dates` renders `'YYYY-MM'` periods as `"Sep 2023 – Present"`,
`"Jan 2020 – Mar 2021"` or `"Jan 2020"`.

The model is functional. The database is an immutable `Store` holding two
maps from rowid to row. Each mutating function is a pure transition from one
store to the next. Each contract says exactly which rows changed and that
nothing else did.

Modules, one per concern:

- `Base` (`base.dfy`): `Option`/`Result`, the largest element of a finite
  set, and listing a set's elements in an unspecified order.
- `Text` (`text.dfy`): SQLite's BINARY collation (the `ORDER BY start_date`
  key), `GROUP_CONCAT(point, '||')` as `Join`, and Python's `str.split('||')`
  as `Split`, with both round-trip lemmas.
- `Dates` (`dates.dfy`): `strptime('%Y-%m')`, `strftime('%b %Y')` and
  `format_dates`. A period `strptime` rejects is a `Failure`, standing for
  the `ValueError` Python raises.
- `Store` (`store.dfy`): the two tables, rowid allocation, the five
  operations and the sample rows of `init_db`.
- `Listing` (`listing.dfy`): `get_all_jobs`, meaning the sort, the rank, the
  split of the concatenated points and the three-point prefix.

Two orders are left open by SQL. One is the order of jobs with equal
`start_date`. The other is the order in which `GROUP_CONCAT` visits a job's
points. The ghost predicate `Listing.IsListing` describes every result the
query may return. `Listing.GetAllJobs` computes one such result and proves
that it is admissible.

`database.py` does not keep order numbers unique within a job. In
`format_dates`, `current` takes precedence over `end_date`, and nothing stops
both being set.

## Model

| member | source | states |
|---|---|---|
| Store.NextRowId | database.py:99-103 | The rowid given to a new row is in no existing row, exceeds every existing rowid, is one more than the largest one, and is 1 in an empty table |
| Store.AddJob | database.py:96-106 | `add_job` inserts exactly one job, carrying the given fields, under an id not previously in `jobs`. Every earlier job keeps its id and contents, and `job_points` is untouched |
| Store.AddJobPoints | database.py:86-94 | `add_job_points` inserts exactly one point with the given job id, text and order number under a fresh rowid. Every earlier point is unchanged, `jobs` is untouched, and the job is not required to exist |
| Store.DeleteJobPoint | database.py:116-121 | Afterwards no point has the given id. Every other point is kept unchanged and `jobs` is untouched. The call is a no-op when no such point exists |
| Store.DeleteJobAndPoints | database.py:123-131 | Afterwards there is no job with the id and no point whose `job_id` equals it. Every other job, and every point of another job, is kept unchanged |
| Store.NextOrderNum | database.py:108-114 | The result is strictly greater than every non-NULL `order_num` of the job's points. It is 1 when the job has none, and otherwise one more than some point's order number, so it is max + 1 |
| Store.NextOrderNumLocal | database.py:111 | Two stores that agree on one job's points agree on that job's next order number, so points of other jobs never affect it |
| Store.NextOrderNumIgnoresOtherJobs | database.py:86-114 | Adding a point to a different job does not change a job's next order number |
| Store.AppendedPointIsLast | database.py:86-114 | A point inserted with the next order number outranks every other point of its job, and the next order number afterwards is one higher |
| Store.AddThenDeletePoint | database.py:86-121 | Deleting the point just added restores the store exactly |
| Store.DeleteJobPointIdempotent | database.py:116-121 | Deleting the same point twice equals deleting it once |
| Store.DeleteJobAndPointsIdempotent | database.py:123-131 | Deleting the same job twice equals deleting it once |
| Store.AddJobThenDelete | database.py:86-131 | Adding a job and a point for it, then deleting the job, restores the store. This holds when no older point already carries the new job's id |
| Store.IntactFreshJobHasNoPoints | database.py:21-28 | If every point's job exists, no point carries the id the next job will get |
| Store.NewJobAdoptsStrayPoint | database.py:21-28 | Foreign keys are not enforced. An orphaned point whose `job_id` equals the id a new job receives becomes that job's point, and deleting the job deletes it too |
| Store.OperationsPreserveIntact | database.py:96-131 | When every point's job exists, that stays true after adding a job, deleting a point or deleting a job |
| Store.AddJobPointsIntact | database.py:86-94 | Adding a point keeps every point's job existing exactly when the named job exists |
| Store.InitDb | database.py:31-41 | Seeding inserts job 1 only if no job 1 exists, leaving other jobs alone. It always inserts one more copy of the sample point under a fresh id |
| Store.InitDbFresh | database.py:31-41 | On an empty database seeding leaves exactly job 1 and one sample point with rowid 1 belonging to it |
| Store.InitDbTwice | database.py:32-41 | A second seeding leaves `jobs` unchanged, so the job insert is idempotent, but adds one more sample point, so the point insert is not |
| Text.LexLeTotal | database.py:56 | Any two start dates are comparable under the BINARY collation used by `ORDER BY start_date` |
| Text.LexLeTransitive | database.py:56 | The BINARY collation order is transitive |
| Text.LexLeAntisymmetric | database.py:56 | Two texts each sorting no later than the other are equal |
| Text.JoinShape | database.py:51 | `GROUP_CONCAT(point, '\|\|')` of no texts is empty. Otherwise the joined text starts with the first text, followed by `'\|\|'` when more texts follow |
| Text.Split | database.py:61 | `str.split('||')` always yields at least one piece |
| Text.SplitFirstPiece | database.py:61 | The first piece is the text up to the first `'||'`, or the whole text when there is no separator |
| Text.SplitPieces | database.py:61 | Every piece but the last is free of `'||'` and does not end in `'\|'`, and the last piece is free of `'\|\|'` |
| Text.JoinSplit | database.py:51-61 | Re-joining the pieces of any split with `'\|\|'` gives back the original text |
| Text.SplitPiece | database.py:61 | A text with no `'\|\|'` splits into just itself |
| Text.SplitSeparated | database.py:51-61 | A separable text followed by `'\|\|'` is cut exactly at that separator |
| Text.SplitJoin | database.py:51-61 | Texts joined with `'\|\|'` split back into the same list when all but the last are separable and the last holds no `'\|\|'` |
| Dates.ParseMonth | database.py:78 | The `%m` field accepts only a month from 1 to 12, written with two digits or, for January to September, with one digit. The accepted value is the month the text spells |
| Dates.MonthTextsParse | database.py:78 | Conversely, every month's two-digit text is accepted as that month, and so is the one-digit text of months 1 to 9 |
| Dates.ParsePeriod | database.py:78 | Every period `strptime('%Y-%m')` accepts has a year in 1..9999 and a month in 1..12 |
| Dates.ParsePeriodText | database.py:78 | Every valid period's canonical `'YYYY-MM'` text parses back to that period |
| Dates.OneDigitMonth | database.py:78 | A four-digit year, a hyphen and a one-digit month 1 to 9 parse to that period, so the one-digit form `ParsedTextIsCanonical` allows is really accepted |
| Dates.ParsedTextIsCanonical | database.py:78 | An accepted text is the canonical `'YYYY-MM'`, or for months 1 to 9 the same with a one-digit month |
| Dates.Render | database.py:78 | `%b %Y` text is eight characters and reads back to the same period: a three-letter month, a space, a four-digit year |
| Dates.RenderInjective | database.py:78 | Different periods never render to the same text |
| Dates.FormatDates | database.py:77-84 | Fails exactly when the start does not parse, or when the job is not current and has a non-empty end that does not parse. The error names the bad text. A success reads back as ongoing from the start when `current` is truthy, as closed from start to end when an end is given, and otherwise as the start alone |
| Dates.CurrentIgnoresEnd | database.py:79-80 | For a current job the result does not depend on `end_date` at all |
| Dates.FormatDatesShape | database.py:78-84 | The text is `"<start> – Present"`, `"<start> – <end>"` or just `"<start>"`, and the last form contains no en dash |
| Listing.FormatJobShows | database.py:67 | Applied to a job's columns, the dates fail exactly on a bad start, or on a bad end of a job that is not current. A success reads back with the job's start period, and as ongoing exactly when the job is current |
| Listing.GroupConcat | database.py:51-54 | The concatenation is NULL exactly when the LEFT JOIN found no point for the job. Otherwise it starts with the first point's text |
| Listing.SplitPoints | database.py:61 | NULL or the empty text gives no points, and any other text gives at least one. The points re-joined with `'\|\|'` give back the text |
| Listing.ResumePoints | database.py:70 | The resume points are the prefix of the points of length min(3, number of points) |
| Listing.SplitPointsRoundTrip | database.py:51-61 | The concatenate-then-split trip gives a list of point texts back unchanged exactly when all of these hold: the list is not one lone empty text, no text holds `'\|\|'`, and no text but the last ends in `'\|'` |
| Listing.SeparatorInTextSplits | database.py:51-61 | A point text containing `'\|\|'` comes back as two points |
| Listing.TrailingBarMoves | database.py:51-61 | A point ending in `'\|'` followed by another point comes back with that `'\|'` moved onto the next point |
| Listing.LoneEmptyTextVanishes | database.py:51-61 | A job whose only point has empty text shows no points, because the empty concatenation is falsy |
| Listing.InsertByStart | database.py:56 | Inserting a job into a list ordered by descending `start_date` text keeps it so ordered. The result is the old list's multiset plus exactly that job, and stays free of repeats |
| Listing.SortByStart | database.py:56 | The sorted ids are a permutation of the input ids, meaning the same multiset, by descending `start_date` text, with no repeats when the input had none |
| Listing.BuildEntry | database.py:59-72 | One row's dictionary carries the job's id, title, company and location, the dates it is given, and rank. Its points are the split concatenation of the job's point texts in some scan order, and its resume points are their first three |
| Listing.BuildEntries | database.py:59-72 | When every row's dates format, the rows in scan order give one entry each, in the same order, with rank 1, 2, 3, … |
| Listing.FirstFailing | database.py:60-67 | Returns the position of the first row in scan order whose dates do not format, or the number of rows if all format. Every row before it formats |
| Listing.FirstFailureIsNewest | database.py:56-67 | In an order of all jobs by descending `start_date` text, the first row whose dates fail belongs to a job whose start text no other failing job's exceeds |
| Listing.CanonicalTextOrder | database.py:56 | For canonical `'YYYY-MM'` texts, the BINARY order of `ORDER BY start_date` agrees with calendar order in both directions, so on such texts descending order is newest first |
| Listing.OneDigitMonthSortsBehind | database.py:56 | `"2023-9"` parses as September 2023 yet sorts after `"2023-12"`, so a job starting `"2023-9"` must be listed before one starting `"2023-12"` |
| Listing.GetAllJobs | database.py:46-75 | Fails exactly when some job's dates do not format, and then with the error of a failing job whose start text no other failing job's exceeds, the first failing row in descending `start_date` text order. Otherwise it returns one entry per job, none twice, in non-increasing `start_date` order, with rank equal to 1-based position |
| Listing.ListingFormatsAll | database.py:67 | A listing exists only if every job's dates format |
| Listing.EntryShowsJobPoints | database.py:51-61 | Suppose each of a job's point texts is free of `'\|\|'` and does not end in `'\|'`, and a job with a single point does not have an empty one. Then the points shown for any scan order are exactly those texts, each once, and as many as the job has points |
| Listing.ListingRanks | database.py:52-69 | Ranks run 1, 2, 3, … down the list, and the first entry has a `start_date` text no other job's exceeds |
| Listing.ListingResumePoints | database.py:70 | Every entry's resume points are a prefix of its points, at most three, and exactly three when there are at least three points |

## Left out

- Connections, cursors, commits and `CREATE TABLE` (database.py:4-29) are I/O. Each operation is one committed transition on an in-memory store.
- `ai_service.py` is a network client for an external completion API and is not modelled. `app.py` is web routing and file download, also not modelled.
- `database.py` has no AI reordering, snapshot or display-order code, so none is modelled.
- Store.NextRowId: SQLite's fallback when the largest rowid is 2^63-1 (a random unused rowid, or `SQLITE_FULL`) is not modelled. Rowids are unbounded integers.
- Store.AddJob: `NOT NULL` violations are not modelled. The text columns are plain strings, so Python callers passing `None` are outside the model.
- Store.AddJobPoints: a NULL `job_id` is not modelled, because the job id is an integer. A NULL `order_num` is modelled.
- Store.AddJobPoints: SQLite stores integers as signed 64-bit values, and binding a `job_id` or `order_num` outside that range makes `add_job_points` raise `OverflowError`. The model accepts any integer. `get_next_order_num` itself computes in Python's unbounded integers, so `Store.NextOrderNum` has no limit to model.
- Dates.ParsePeriod: only ASCII digits are accepted. Python's `\d` also matches other Unicode decimal digits.
- Dates.Render: years are printed with four digits. Some C libraries print years below 1000 without leading zeros.
- Dates.FormatDates: `current` is a boolean. SQLite returns whatever integer was stored, and Python tests its truthiness.
- Listing.GetAllJobs: the contract ties `rank` to list position. SQL numbers rows with its own `ORDER BY start_date DESC`, which could break ties between equal start dates differently from the outer `ORDER BY`. The model assumes one sort serves both.
- Listing.GetAllJobs: jobs are ordered by their `start_date` text, not by date. For canonical `'YYYY-MM'` texts the two agree (`CanonicalTextOrder`). `format_dates` also accepts a one-digit month, and such a text sorts out of calendar order (`OneDigitMonthSortsBehind`). Then the listing is not newest first, and a failure reports the failing job with the greatest start text, which need not be the one that started last.
- Listing.GetAllJobs: the concrete result chooses one scan order for ties and for `GROUP_CONCAT`. The contract admits every order.
- Listing.GetAllJobs: the model checks every row's dates before it builds any entry, while Python formats each row as it builds it. The loop has no side effects, so the result and the error raised are the same.
- Listing.SplitPointsRoundTrip: three cases do not survive the concatenate-then-split trip. These are a text holding `'||'`, a text ending in `'|'` that another text follows, and a single empty text as a job's only point. An empty text among others, and a trailing `'|'` on the last text, do survive. `SeparatorInTextSplits`, `TrailingBarMoves` and `LoneEmptyTextVanishes` show the three failures on concrete lists.

=== FILE: base.dfy ===
/**
 Small shared vocabulary: optional values, results with an error value, and
 the "largest element of a finite set of integers" that both SQLite's rowid
 allocation and `MAX(order_num)` rely on.
 */
module Base {

  /** A value that may be missing; stands for SQL NULL / Python None. */
  datatype Option<+T> = None | Some(value: T)

  /** Either a value or the error that the Python code would have raised. */
  datatype Result<+T, +E> = Success(value: T) | Failure(error: E)

  /** No element of `xs` occurs twice. */
  predicate Distinct<T(==)>(xs: seq<T>)
  {
    forall i, j :: 0 <= i < j < |xs| ==> xs[i] != xs[j]
  }

  /** Putting an element that does not occur in front of a list without repeats keeps it without repeats. */
  lemma DistinctCons<T>(x: T, xs: seq<T>)
    ensures Distinct(xs) && x !in xs ==> Distinct([x] + xs)
  {
    if Distinct(xs) && x !in xs {
      var r := [x] + xs;
      forall a, b | 0 <= a < b < |r|
        ensures r[a] != r[b]
      {
        if a == 0 {
          assert r[b] in xs;
        } else {
          assert r[a] == xs[a - 1] && r[b] == xs[b - 1];
        }
      }
    }
  }

  /** A non-empty set has an element to pick. */
  lemma Inhabited(xs: set<int>)
    requires xs != {}
    ensures exists y :: y in xs
  {
    if forall y :: y !in xs {
      assert false;
    }
  }

  /** Every non-empty finite set of integers has a largest element. */
  lemma {:induction false} MaxExists(xs: set<int>)
    requires xs != {}
    ensures exists m :: m in xs && forall y :: y in xs ==> y <= m
    decreases |xs|
  {
    Inhabited(xs);
    var x :| x in xs;
    var rest := xs - {x};
    if rest == {} {
      assert xs == {x};
    } else {
      MaxExists(rest);
      var m :| m in rest && forall y :: y in rest ==> y <= m;
      var top := if x <= m then m else x;
      forall y | y in xs
        ensures y <= top
      {
        if y != x {
          assert y in rest;
        }
      }
    }
  }

  /** The largest element of a non-empty finite set of integers. */
  function MaxOf(xs: set<int>): (m: int)
    requires xs != {}
    ensures m in xs
    ensures forall y :: y in xs ==> y <= m
  {
    MaxExists(xs);
    var m :| m in xs && forall y :: y in xs ==> y <= m;
    m
  }

  /**
   Lists the elements of a finite set once each, in an unspecified order
   (the order in which a database would happen to scan them).
   */
  method Enumerate(ks: set<int>) returns (xs: seq<int>)
    ensures Distinct(xs)
    ensures forall i :: 0 <= i < |xs| ==> xs[i] in ks
    ensures forall k :: k in ks ==> k in xs
    ensures |xs| == |ks|
  {
    xs := [];
    var rest := ks;
    while rest != {}
      invariant Distinct(xs)
      invariant forall i :: 0 <= i < |xs| ==> xs[i] in ks && xs[i] !in rest
      invariant forall k :: k in ks ==> k in xs || k in rest
      invariant rest <= ks
      invariant |xs| + |rest| == |ks|
      decreases |rest|
    {
      Inhabited(rest);
      var k :| k in rest;
      xs := xs + [k];
      rest := rest - {k};
    }
  }
}

=== FILE: dates.dfy ===
/**
 `format_dates`: turns the `'YYYY-MM'` periods stored in `jobs.start_date`
 and `jobs.end_date` into the text shown on the resume, such as
 `"Sep 2023 – Present"`. Python parses each period with
 `datetime.strptime(text, '%Y-%m')` and prints it with `strftime('%b %Y')`
 in the C locale; a text `strptime` does not accept raises `ValueError`,
 which this model returns as a `Failure`.
 */
module Dates {
  import opened Base

  /** A calendar month, as `datetime` keeps it after parsing `'%Y-%m'`. */
  datatype Period = Period(year: int, month: int)

  /** The periods `datetime` can represent (`MINYEAR` is 1, `MAXYEAR` 9999). */
  predicate Valid(p: Period)
  {
    1 <= p.year <= 9999 && 1 <= p.month <= 12
  }

  /** What `strptime` raises on: the text that did not parse. */
  datatype DateError = BadPeriod(text: string)

  /** The C-locale month abbreviations `%b` prints, January first. */
  const MonthNames: seq<string> :=
    ["Jan", "Feb", "Mar", "Apr", "May", "Jun", "Jul", "Aug", "Sep", "Oct", "Nov", "Dec"]

  /** The en dash (U+2013) with a space on each side, between the two ends. */
  const Dash: string := " \U{2013} "

  /** What follows the start of a job that is still going on. */
  const PresentSuffix: string := Dash + "Present"

  // ---------------------------------------------------------------------------
  // Digits
  // ---------------------------------------------------------------------------

  predicate IsDigit(c: char)
  {
    '0' <= c <= '9'
  }

  function DigitValue(c: char): (d: int)
    requires IsDigit(c)
    ensures 0 <= d <= 9
  {
    c as int - '0' as int
  }

  function DigitChar(d: int): (c: char)
    requires 0 <= d <= 9
    ensures IsDigit(c) && DigitValue(c) == d
  {
    (d + '0' as int) as char
  }

  /** The decimal digits of a number below 10000, most significant first. */
  lemma DigitsOf(y: int)
    requires 0 <= y <= 9999
    ensures 0 <= y / 1000 <= 9 && 0 <= y % 1000 / 100 <= 9 && 0 <= y % 100 / 10 <= 9 && 0 <= y % 10 <= 9
    ensures y == 1000 * (y / 1000) + 100 * (y % 1000 / 100) + 10 * (y % 100 / 10) + y % 10
  {
    var r := y % 1000;
    assert y == 1000 * (y / 1000) + r;
    var r2 := r % 100;
    assert r == 100 * (r / 100) + r2;
    assert r2 == y % 100;
    assert r2 == 10 * (r2 / 10) + r2 % 10;
    assert r2 % 10 == y % 10;
  }

  /** Four decimal digits are recovered from the number they spell. */
  lemma DigitsFrom(a: int, b: int, c: int, d: int)
    requires 0 <= a <= 9 && 0 <= b <= 9 && 0 <= c <= 9 && 0 <= d <= 9
    ensures var y := 1000 * a + 100 * b + 10 * c + d;
      y / 1000 == a && y % 1000 / 100 == b && y % 100 / 10 == c && y % 10 == d
  {
    var y := 1000 * a + 100 * b + 10 * c + d;
    var r := 100 * b + 10 * c + d;
    assert y / 1000 == a && y % 1000 == r;
    var r2 := 10 * c + d;
    assert r / 100 == b && r % 100 == r2;
    assert y % 100 == r2;
    assert r2 / 10 == c && r2 % 10 == d;
    assert y % 10 == d;
  }

  /** The number four decimal digits spell. */
  function FourDigitValue(t: string): (y: int)
    requires |t| == 4 && forall i :: 0 <= i < 4 ==> IsDigit(t[i])
    ensures 0 <= y <= 9999
  {
    1000 * DigitValue(t[0]) + 100 * DigitValue(t[1]) + 10 * DigitValue(t[2]) + DigitValue(t[3])
  }

  /** A year printed with four digits, as `%Y` does for years 1000 to 9999. */
  function YearText(y: int): (t: string)
    requires 0 <= y <= 9999
    ensures |t| == 4 && forall i :: 0 <= i < 4 ==> IsDigit(t[i])
    ensures FourDigitValue(t) == y
  {
    DigitsOf(y);
    [DigitChar(y / 1000), DigitChar(y % 1000 / 100), DigitChar(y % 100 / 10), DigitChar(y % 10)]
  }

  /** Four digits are determined by the number they spell. */
  lemma FourDigitsDetermined(t: string)
    requires |t| == 4 && forall i :: 0 <= i < 4 ==> IsDigit(t[i])
    ensures YearText(FourDigitValue(t)) == t
  {
    DigitsFrom(DigitValue(t[0]), DigitValue(t[1]), DigitValue(t[2]), DigitValue(t[3]));
    var u := YearText(FourDigitValue(t));
    forall i | 0 <= i < 4
      ensures u[i] == t[i]
    {
      assert DigitValue(u[i]) == DigitValue(t[i]);
    }
  }

  // ---------------------------------------------------------------------------
  // Parsing '%Y-%m'
  // ---------------------------------------------------------------------------

  /**
   The month field of `'%Y-%m'`: `strptime` matches `1[0-2]|0[1-9]|[1-9]`
   in that order and then demands that nothing is left over.
   */
  function ParseMonth(m: string): (r: Option<int>)
    ensures r.Some? ==> 1 <= r.value <= 12
    ensures r.Some? ==> m == MonthText(r.value) || (r.value <= 9 && m == [DigitChar(r.value)])
  {
    if |m| == 2 && m[0] == '1' && '0' <= m[1] <= '2' then Some(10 + DigitValue(m[1]))
    else if |m| == 2 && m[0] == '0' && '1' <= m[1] <= '9' then Some(DigitValue(m[1]))
    else if |m| == 1 && '1' <= m[0] <= '9' then Some(DigitValue(m[0]))
    else None
  }

  /** A month written with two digits, as `'%Y-%m'` texts are stored. */
  function MonthText(k: int): (t: string)
    requires 1 <= k <= 12
  {
    [DigitChar(k / 10), DigitChar(k % 10)]
  }

  /**
   The converse of `ParseMonth`'s contract: every month is accepted in its
   two-digit form, and January to September also with one digit.
   */
  lemma MonthTextsParse(k: int)
    requires 1 <= k <= 12
    ensures ParseMonth(MonthText(k)) == Some(k)
    ensures k <= 9 ==> ParseMonth([DigitChar(k)]) == Some(k)
  {
  }

  /**
   `datetime.strptime(s, '%Y-%m')`: four digits, a hyphen and a month; year 0
   is out of `datetime`'s range and raises as well.
   */
  function ParsePeriod(s: string): (r: Option<Period>)
    ensures r.Some? ==> Valid(r.value)
  {
    if |s| < 6 || !(IsDigit(s[0]) && IsDigit(s[1]) && IsDigit(s[2]) && IsDigit(s[3])) || s[4] != '-' then
      None
    else
      var year := FourDigitValue(s[..4]);
      var month := ParseMonth(s[5..]);
      if year == 0 || month.None? then None else Some(Period(year, month.value))
  }

  /** The canonical stored form `'YYYY-MM'` of a period. */
  function PeriodText(p: Period): (s: string)
    requires Valid(p)
  {
    YearText(p.year) + "-" + MonthText(p.month)
  }

  /** Every valid period's canonical text parses back to it. */
  lemma ParsePeriodText(p: Period)
    requires Valid(p)
    ensures ParsePeriod(PeriodText(p)) == Some(p)
  {
    var s := PeriodText(p);
    assert s[..4] == YearText(p.year);
    assert s[5..] == MonthText(p.month);
    MonthTextsParse(p.month);
  }

  /** A period whose month is written with one digit parses to that month. */
  lemma OneDigitMonth(y: int, m: int)
    requires 1 <= y <= 9999 && 1 <= m <= 9
    ensures ParsePeriod(YearText(y) + "-" + [DigitChar(m)]) == Some(Period(y, m))
  {
    var s := YearText(y) + "-" + [DigitChar(m)];
    assert s[..4] == YearText(y);
    assert s[5..] == [DigitChar(m)];
    MonthTextsParse(m);
  }

  /**
   The texts `strptime` accepts are exactly the canonical ones plus, for
   January to September, the same with a one-digit month.
   */
  lemma ParsedTextIsCanonical(s: string)
    requires ParsePeriod(s).Some?
    ensures var p := ParsePeriod(s).value;
      s == PeriodText(p) || (p.month <= 9 && s == YearText(p.year) + "-" + [DigitChar(p.month)])
  {
    var p := ParsePeriod(s).value;
    FourDigitsDetermined(s[..4]);
    assert s == s[..4] + "-" + s[5..];
  }

  // ---------------------------------------------------------------------------
  // Printing '%b %Y' and reading it back
  // ---------------------------------------------------------------------------

  /** The 1-based position of `abbr` among the month abbreviations. */
  function MonthNumber(abbr: string): (r: Option<int>)
    ensures r.Some? ==> 1 <= r.value <= 12 && MonthNames[r.value - 1] == abbr
    ensures r.None? ==> abbr !in MonthNames
  {
    if abbr == "Jan" then Some(1) else if abbr == "Feb" then Some(2)
    else if abbr == "Mar" then Some(3) else if abbr == "Apr" then Some(4)
    else if abbr == "May" then Some(5) else if abbr == "Jun" then Some(6)
    else if abbr == "Jul" then Some(7) else if abbr == "Aug" then Some(8)
    else if abbr == "Sep" then Some(9) else if abbr == "Oct" then Some(10)
    else if abbr == "Nov" then Some(11) else if abbr == "Dec" then Some(12)
    else None
  }

  /** Reads back one rendered month: three-letter abbreviation, a space, four digits. */
  function ReadPeriod(t: string): (r: Option<Period>)
    ensures r.Some? ==> Valid(r.value)
  {
    if |t| != 8 || t[3] != ' ' || !(forall i :: 4 <= i < 8 ==> IsDigit(t[i])) then None
    else
      var month := MonthNumber(t[..3]);
      var year := FourDigitValue(t[4..]);
      if month.None? || year == 0 then None else Some(Period(year, month.value))
  }

  /**
   `strftime('%b %Y')`: the month's abbreviation, a space and the year. The
   text is eight characters long and reads back as the same period.
   */
  function Render(p: Period): (t: string)
    requires Valid(p)
    ensures |t| == 8
    ensures ReadPeriod(t) == Some(p)
  {
    var t := MonthNames[p.month - 1] + " " + YearText(p.year);
    assert t[..3] == MonthNames[p.month - 1];
    assert t[4..] == YearText(p.year);
    t
  }

  /** Distinct periods render to distinct texts. */
  lemma RenderInjective(p: Period, q: Period)
    requires Valid(p) && Valid(q)
    requires Render(p) == Render(q)
    ensures p == q
  {
    assert ReadPeriod(Render(p)) == Some(p);
  }

  // ---------------------------------------------------------------------------
  // format_dates
  // ---------------------------------------------------------------------------

  /** The three shapes a job's dates take on the resume. */
  datatype Span = Ongoing(start: Period) | Closed(start: Period, end: Period) | Single(start: Period)

  /** Python truthiness of `end_date`: neither NULL nor the empty string. */
  predicate EndGiven(end: Option<string>)
  {
    end.Some? && end.value != ""
  }

  /** Reads a displayed date range back into its span. */
  function ReadDisplay(t: string): Option<Span>
  {
    if |t| == 8 then
      var p := ReadPeriod(t);
      if p.Some? then Some(Single(p.value)) else None
    else if |t| == 8 + |PresentSuffix| && t[8..] == PresentSuffix then
      var p := ReadPeriod(t[..8]);
      if p.Some? then Some(Ongoing(p.value)) else None
    else if |t| == 8 + |Dash| + 8 && t[8..8 + |Dash|] == Dash then
      var p := ReadPeriod(t[..8]);
      var q := ReadPeriod(t[8 + |Dash|..]);
      if p.Some? && q.Some? then Some(Closed(p.value, q.value)) else None
    else None
  }

  /**
   `format_dates(start_date, end_date, current)`. The start is parsed first,
   so a bad start raises even for a current job; `current` wins over any
   `end_date`; an end date is only parsed when `current` is falsy.
   */
  function FormatDates(start: string, end: Option<string>, current: bool): (r: Result<string, DateError>)
    ensures r.Failure? <==>
      ParsePeriod(start).None? || (!current && EndGiven(end) && ParsePeriod(end.value).None?)
    ensures r.Failure? && ParsePeriod(start).None? ==> r.error == BadPeriod(start)
    ensures r.Failure? && ParsePeriod(start).Some? ==> r.error == BadPeriod(end.value)
    ensures r.Success? && current ==>
      ReadDisplay(r.value) == Some(Ongoing(ParsePeriod(start).value))
    ensures r.Success? && !current && EndGiven(end) ==>
      ReadDisplay(r.value) == Some(Closed(ParsePeriod(start).value, ParsePeriod(end.value).value))
    ensures r.Success? && !current && !EndGiven(end) ==>
      ReadDisplay(r.value) == Some(Single(ParsePeriod(start).value))
  {
    var s := ParsePeriod(start);
    if s.None? then Failure(BadPeriod(start))
    else
      var first := Render(s.value);
      if current then
        var t := first + PresentSuffix;
        assert t[..8] == first && t[8..] == PresentSuffix;
        Success(t)
      else if EndGiven(end) then
        var e := ParsePeriod(end.value);
        if e.None? then Failure(BadPeriod(end.value))
        else
          var last := Render(e.value);
          var t := first + Dash + last;
          assert t[..8] == first && t[8..8 + |Dash|] == Dash && t[8 + |Dash|..] == last;
          Success(t)
      else
        Success(first)
  }

  /** For a current job the end date plays no part at all. */
  lemma CurrentIgnoresEnd(start: string, end1: Option<string>, end2: Option<string>)
    ensures FormatDates(start, end1, true) == FormatDates(start, end2, true)
  {
  }

  /** Each shape of the displayed text: rendered start, then the dash part if any. */
  lemma FormatDatesShape(start: string, end: Option<string>, current: bool)
    requires FormatDates(start, end, current).Success?
    ensures var t := FormatDates(start, end, current).value;
      var first := Render(ParsePeriod(start).value);
      && t[..8] == first
      && (current ==> t == first + Dash + "Present")
      && (!current && EndGiven(end) ==> t == first + Dash + Render(ParsePeriod(end.value).value))
      && (!current && !EndGiven(end) ==> t == first && '\U{2013}' !in t)
  {
    var t := FormatDates(start, end, current).value;
    var first := Render(ParsePeriod(start).value);
    if !current && !EndGiven(end) {
      assert t == MonthNames[ParsePeriod(start).value.month - 1] + " " + YearText(ParsePeriod(start).value.year);
    }
  }
}

=== FILE: listing.dfy ===
/**
 `get_all_jobs`: the read side of the store. One query joins every job with
 its points, glues each job's point texts with `GROUP_CONCAT(point, '||')`,
 numbers the jobs with `ROW_NUMBER() OVER (ORDER BY start_date DESC)` and
 returns them by descending `start_date` text, which is newest first for
 canonical `'YYYY-MM'` texts; Python then splits the glued text back into a
 list, keeps the first three as resume points and formats the dates.

 SQL leaves two orders open: the order of jobs with equal `start_date`, and
 the order in which `GROUP_CONCAT` visits a job's points. The contract
 (`IsListing`) admits every choice; `GetAllJobs` computes one of them.
 */
module Listing {
  import opened Base
  import opened Text
  import opened Dates
  import opened Store

  /** The dictionary `get_all_jobs` builds for one job. */
  datatype JobEntry = JobEntry(
    id: int,
    title: string,
    company: string,
    location: string,
    dates: string,
    points: seq<string>,
    rank: int,
    resumePoints: seq<string>)

  /** `format_dates` applied to a job's own columns. */
  function FormatJob(job: Job): Result<string, DateError>
  {
    FormatDates(job.startDate, job.endDate, job.current)
  }

  /**
   A job's dates fail on a bad start, or on a bad end of a job that is not
   current; when they format, they read back with the job's start period, as
   an ongoing span exactly for a current job.
   */
  lemma FormatJobShows(job: Job)
    ensures var r := FormatJob(job);
      && (r.Failure? <==>
          (ParsePeriod(job.startDate).None? || (!job.current && EndGiven(job.endDate) && ParsePeriod(job.endDate.value).None?)))
      && (r.Success? ==> ReadDisplay(r.value).Some?)
      && (r.Success? ==> ReadDisplay(r.value).value.start == ParsePeriod(job.startDate).value)
      && (r.Success? ==> (ReadDisplay(r.value).value.Ongoing? <==> job.current))
  {
  }

  // ---------------------------------------------------------------------------
  // Points: GROUP_CONCAT, split, first three
  // ---------------------------------------------------------------------------

  /**
   `GROUP_CONCAT(jp.point, '||')` over one job's group: NULL when the LEFT
   JOIN found no point (point texts are NOT NULL, so none is skipped).
   */
  function GroupConcat(texts: seq<string>): (r: Option<string>)
    ensures r.None? <==> |texts| == 0
    ensures r.Some? ==> |texts[0]| <= |r.value| && r.value[..|texts[0]|] == texts[0]
  {
    JoinShape(texts);
    if |texts| == 0 then None else Some(Join(texts))
  }

  /** `row[7].split('||') if row[7] else []`: NULL and the empty text give no points. */
  function SplitPoints(concat: Option<string>): (r: seq<string>)
    ensures r == [] <==> concat.None? || concat == Some("")
    ensures concat.Some? && concat.value != "" ==> Join(r) == concat.value
  {
    match concat
    case None => []
    case Some(t) => if t == "" then [] else JoinSplit(t); Split(t)
  }

  /** `points[:3] if points else []`: the first three points, or all of them if fewer. */
  function ResumePoints(points: seq<string>): (r: seq<string>)
    ensures |r| == if |points| < 3 then |points| else 3
    ensures r == points[..|r|]
  {
    if |points| <= 3 then points else points[..3]
  }

  /** `e` lists each point of job `jobId` exactly once: one order GROUP_CONCAT may visit them in. */
  ghost predicate IsEnumeration(s: Store, jobId: int, e: seq<int>)
  {
    && Distinct(e)
    && (forall i :: 0 <= i < |e| ==> e[i] in s.points && s.points[e[i]].jobId == jobId)
    && (forall k :: k in s.points && s.points[k].jobId == jobId ==> k in e)
  }

  /** The texts of the listed points, in the listed order. */
  function TextsOf(s: Store, e: seq<int>): (texts: seq<string>)
    requires forall i :: 0 <= i < |e| ==> e[i] in s.points
    ensures |texts| == |e|
    ensures forall i :: 0 <= i < |e| ==> texts[i] == s.points[e[i]].text
  {
    seq(|e|, i requires 0 <= i < |e| => s.points[e[i]].text)
  }

  /**
   The lists of point texts the concatenate-then-split trip gives back
   unchanged: not one lone empty text, no `'||'` anywhere, and no text but the
   last ending in `'|'`.
   */
  predicate RoundTrips(texts: seq<string>)
  {
    texts != [""] && (|texts| == 0 || WellCut(texts))
  }

  /**
   Job `jobId`'s point texts come back unchanged whatever order they are
   concatenated in: each is separable, and a job with a single point does not
   have an empty one.
   */
  predicate SplittableTexts(s: Store, jobId: int)
  {
    && (forall k :: k in s.points && s.points[k].jobId == jobId ==> Separable(s.points[k].text))
    && (|PointsOf(s, jobId)| == 1 ==> forall k :: k in PointsOf(s, jobId) ==> s.points[k].text != "")
  }

  /** The concatenate-then-split trip gives the texts back exactly when they are `RoundTrips`. */
  lemma SplitPointsRoundTrip(texts: seq<string>)
    ensures SplitPoints(GroupConcat(texts)) == texts <==> RoundTrips(texts)
  {
    if |texts| > 0 {
      var joined := Join(texts);
      JoinShape(texts);
      assert joined != "" <==> texts != [""] by {
        if |texts| >= 2 {
          assert |joined| >= 2;
        }
      }
      if RoundTrips(texts) {
        SplitJoin(texts);
      }
      if joined != "" && Split(joined) == texts {
        SplitPieces(joined);
      }
    }
  }

  /** A point text holding `'||'` comes back as two points. */
  lemma SeparatorInTextSplits()
    ensures SplitPoints(GroupConcat(["a||b"])) == ["a", "b"]
  {
    SplitPiece("b");
    assert Split("||b") == ["", "b"] by {
      assert "||b"[2..] == "b";
    }
    var t := "a||b";
    assert t[1..] == "||b";
    var rest := Split(t[1..]);
    assert Split(t) == [[t[0]] + rest[0]] + rest[1..];
    assert [t[0]] + rest[0] == "a";
    assert rest[1..] == ["b"];
  }

  /** A text ending in `'|'` followed by another point loses its `'|'` to the next one. */
  lemma TrailingBarMoves()
    ensures SplitPoints(GroupConcat(["a|", "b"])) == ["a", "|b"]
  {
    assert Join(["a|", "b"]) == "a|||b";
    SplitPiece("b");
    SplitPiece("|b");
    assert Split("|||b") == ["", "|b"] by {
      assert "|||b"[2..] == "|b";
    }
    var t := "a|||b";
    assert t[1..] == "|||b";
    var rest := Split(t[1..]);
    assert Split(t) == [[t[0]] + rest[0]] + rest[1..];
    assert [t[0]] + rest[0] == "a";
    assert rest[1..] == ["|b"];
  }

  /** A job whose only point has empty text shows no points at all. */
  lemma LoneEmptyTextVanishes()
    ensures SplitPoints(GroupConcat([""])) == []
  {
  }

  // ---------------------------------------------------------------------------
  // What get_all_jobs returns
  // ---------------------------------------------------------------------------

  /**
   `v` is the entry `get_all_jobs` builds for job `id` at 1-based position
   `rank`: the job's columns, its formatted dates, its points split from some
   concatenation order, and the first three of those as resume points.
   */
  ghost predicate EntryFor(s: Store, id: int, rank: int, v: JobEntry)
  {
    && id in s.jobs
    && FormatJob(s.jobs[id]) == Success(v.dates)
    && Shows(s, id, rank, v)
  }

  /** Every field of `v` but the dates is the one `get_all_jobs` fills in for job `id` at `rank`. */
  ghost predicate Shows(s: Store, id: int, rank: int, v: JobEntry)
    requires id in s.jobs
  {
    && v.id == id
    && v.title == s.jobs[id].title
    && v.company == s.jobs[id].company
    && v.location == s.jobs[id].location
    && v.rank == rank
    && v.resumePoints == ResumePoints(v.points)
    && ScannedPoints(s, id, v.points)
  }

  /** `points` is what splitting the job's concatenated point texts gives, for some scan order. */
  ghost predicate ScannedPoints(s: Store, id: int, points: seq<string>)
  {
    exists e :: IsEnumeration(s, id, e) && points == PointsFrom(s, e)
  }

  /** The points `get_all_jobs` shows when the job's points are scanned in the order `e`. */
  function PointsFrom(s: Store, e: seq<int>): seq<string>
    requires forall i :: 0 <= i < |e| ==> e[i] in s.points
  {
    SplitPoints(GroupConcat(TextsOf(s, e)))
  }

  /** The job ids in `order`, each a job of `jobs`, by non-increasing `start_date` text. */
  predicate NewestFirst(jobs: map<int, Job>, order: seq<int>)
  {
    && (forall i :: 0 <= i < |order| ==> order[i] in jobs)
    && forall i, j :: 0 <= i < j < |order| ==> LexLe(jobs[order[j]].startDate, jobs[order[i]].startDate)
  }

  /** The job ids of the entries, in order. */
  function Ids(entries: seq<JobEntry>): (ids: seq<int>)
    ensures |ids| == |entries|
    ensures forall i :: 0 <= i < |entries| ==> ids[i] == entries[i].id
  {
    seq(|entries|, i requires 0 <= i < |entries| => entries[i].id)
  }

  /**
   Everything `get_all_jobs` may return for store `s`: one entry per job and
   no job twice, by descending `start_date` text, rank equal to 1-based position.
   */
  ghost predicate IsListing(s: Store, entries: seq<JobEntry>)
  {
    && |entries| == |s.jobs|
    && (forall i, j :: 0 <= i < j < |entries| ==> entries[i].id != entries[j].id)
    && (forall id :: id in s.jobs ==> exists i :: 0 <= i < |entries| && entries[i].id == id)
    && (forall i :: 0 <= i < |entries| ==> EntryFor(s, entries[i].id, i + 1, entries[i]))
    && NewestFirst(s.jobs, Ids(entries))
  }

  // ---------------------------------------------------------------------------
  // ORDER BY start_date DESC
  // ---------------------------------------------------------------------------

  /** Places job `id` into a list by descending start text, ahead of every job whose start text is not greater. */
  function InsertByStart(jobs: map<int, Job>, id: int, sorted: seq<int>): (r: seq<int>)
    requires id in jobs
    requires NewestFirst(jobs, sorted)
    ensures InsertedInto(jobs, id, sorted, r)
    decreases |sorted|
  {
    if |sorted| == 0 || LexLe(jobs[sorted[0]].startDate, jobs[id].startDate) then
      InsertInFront(jobs, id, sorted);
      [id] + sorted
    else
      var rest := InsertByStart(jobs, id, sorted[1..]);
      InsertBehind(jobs, id, sorted, rest);
      [sorted[0]] + rest
  }

  /**
   `r` is `sorted` with `id` added: one longer, the same elements with their
   multiplicities plus `id`, still by descending start text, and without repeats if
   `sorted` had none and did not hold `id`.
   */
  ghost predicate InsertedInto(jobs: map<int, Job>, id: int, sorted: seq<int>, r: seq<int>)
  {
    && |r| == |sorted| + 1
    && (forall k :: k in r <==> k == id || k in sorted)
    && multiset(r) == multiset(sorted) + multiset{id}
    && NewestFirst(jobs, r)
    && (Distinct(sorted) && id !in sorted ==> Distinct(r))
  }

  /** A job that started no earlier than the first job goes in front. */
  lemma InsertInFront(jobs: map<int, Job>, id: int, sorted: seq<int>)
    requires id in jobs
    requires NewestFirst(jobs, sorted)
    requires |sorted| == 0 || LexLe(jobs[sorted[0]].startDate, jobs[id].startDate)
    ensures InsertedInto(jobs, id, sorted, [id] + sorted)
  {
    NewestFirstPrepend(jobs, id, sorted);
    DistinctCons(id, sorted);
  }

  /** A job that started before the first job goes somewhere behind it. */
  lemma InsertBehind(jobs: map<int, Job>, id: int, sorted: seq<int>, rest: seq<int>)
    requires id in jobs && |sorted| > 0
    requires NewestFirst(jobs, sorted)
    requires !LexLe(jobs[sorted[0]].startDate, jobs[id].startDate)
    requires InsertedInto(jobs, id, sorted[1..], rest)
    ensures InsertedInto(jobs, id, sorted, [sorted[0]] + rest)
  {
    var head := sorted[0];
    LexLeTotal(jobs[head].startDate, jobs[id].startDate);
    assert sorted == [head] + sorted[1..];
    NewestFirstBehind(jobs, sorted, rest);
    DistinctCons(head, rest);
  }

  /** A job whose start text is no less than the head's in a descending list can go in front. */
  lemma NewestFirstPrepend(jobs: map<int, Job>, id: int, sorted: seq<int>)
    requires id in jobs
    requires NewestFirst(jobs, sorted)
    requires |sorted| == 0 || LexLe(jobs[sorted[0]].startDate, jobs[id].startDate)
    ensures NewestFirst(jobs, [id] + sorted)
  {
    var r := [id] + sorted;
    forall j | 1 <= j < |r|
      ensures LexLe(jobs[r[j]].startDate, jobs[id].startDate)
    {
      if j > 1 {
        LexLeTransitive(jobs[r[j]].startDate, jobs[sorted[0]].startDate, jobs[id].startDate);
      }
    }
  }

  /**
   The head of a list by descending start text stays in front of the rest once another
   job, which started no later, has been placed among the rest.
   */
  lemma NewestFirstBehind(jobs: map<int, Job>, sorted: seq<int>, rest: seq<int>)
    requires |sorted| > 0 && NewestFirst(jobs, sorted) && NewestFirst(jobs, rest)
    requires forall k :: k in rest ==> k in sorted[1..] || LexLe(jobs[k].startDate, jobs[sorted[0]].startDate)
    ensures NewestFirst(jobs, [sorted[0]] + rest)
  {
    var head := sorted[0];
    var r := [head] + rest;
    forall j | 1 <= j < |r|
      ensures LexLe(jobs[r[j]].startDate, jobs[head].startDate)
    {
      assert r[j] == rest[j - 1];
      if r[j] in sorted[1..] {
        var m :| 0 <= m < |sorted[1..]| && sorted[1..][m] == r[j];
        assert sorted[m + 1] == r[j];
      }
    }
  }

  /** Insertion sort of job ids by descending `start_date` text. */
  function SortByStart(jobs: map<int, Job>, ids: seq<int>): (r: seq<int>)
    requires forall k :: k in ids ==> k in jobs
    ensures SortedFrom(jobs, ids, r)
    decreases |ids|
  {
    if |ids| == 0 then []
    else
      var rest := SortByStart(jobs, ids[1..]);
      var r := InsertByStart(jobs, ids[0], rest);
      SortStep(jobs, ids, rest, r);
      r
  }

  /**
   `r` holds the ids of `ids` by descending start text: the same length, the same
   elements with their multiplicities, and no repeats if `ids` had none.
   */
  ghost predicate SortedFrom(jobs: map<int, Job>, ids: seq<int>, r: seq<int>)
  {
    && |r| == |ids|
    && (forall k :: k in r <==> k in ids)
    && multiset(r) == multiset(ids)
    && NewestFirst(jobs, r)
    && (Distinct(ids) ==> Distinct(r))
  }

  /** Inserting the first id into the sorted rest sorts the whole list. */
  lemma SortStep(jobs: map<int, Job>, ids: seq<int>, rest: seq<int>, r: seq<int>)
    requires |ids| > 0
    requires SortedFrom(jobs, ids[1..], rest)
    requires InsertedInto(jobs, ids[0], rest, r)
    ensures SortedFrom(jobs, ids, r)
  {
    assert ids == [ids[0]] + ids[1..];
    assert multiset(ids) == multiset(ids[1..]) + multiset{ids[0]};
  }

  // ---------------------------------------------------------------------------
  // Text order against calendar order
  // ---------------------------------------------------------------------------

  /** A number below 100 written with two digits. */
  function Pair(n: int): string
    requires 0 <= n <= 99
  {
    [DigitChar(n / 10), DigitChar(n % 10)]
  }

  /**
   Behind a common-length head the comparison is decided by the heads when
   they differ, and by the tails when they are equal.
   */
  lemma {:induction false} LexLeAfterHead(a: string, b: string, c: string, d: string)
    requires |a| == |b|
    ensures LexLe(a + c, b + d) <==> if a == b then LexLe(c, d) else LexLe(a, b)
    decreases |a|
  {
    if |a| == 0 {
      assert a + c == c && b + d == d;
    } else {
      assert (a + c)[0] == a[0] && (b + d)[0] == b[0];
      assert (a + c)[1..] == a[1..] + c && (b + d)[1..] == b[1..] + d;
      LexLeAfterHead(a[1..], b[1..], c, d);
      assert a == [a[0]] + a[1..] && b == [b[0]] + b[1..];
    }
  }

  /** Two-digit texts compare as the numbers they spell, and are equal only for equal numbers. */
  lemma PairOrder(m: int, n: int)
    requires 0 <= m <= 99 && 0 <= n <= 99
    ensures LexLe(Pair(m), Pair(n)) <==> m <= n
    ensures Pair(m) == Pair(n) <==> m == n
  {
    LexLeAfterHead([DigitChar(m / 10)], [DigitChar(n / 10)], [DigitChar(m % 10)], [DigitChar(n % 10)]);
    assert Pair(m) == [DigitChar(m / 10)] + [DigitChar(m % 10)];
    assert Pair(n) == [DigitChar(n / 10)] + [DigitChar(n % 10)];
    assert m == 10 * (m / 10) + m % 10 && n == 10 * (n / 10) + n % 10;
    if Pair(m) == Pair(n) {
      assert DigitValue(Pair(m)[0]) == DigitValue(Pair(n)[0]);
      assert DigitValue(Pair(m)[1]) == DigitValue(Pair(n)[1]);
    }
  }

  /** A year's four digits are the two digits of its century and those of the rest. */
  lemma YearPairs(y: int)
    requires 0 <= y <= 9999
    ensures YearText(y) == Pair(y / 100) + Pair(y % 100)
  {
    DigitsOf(y);
    assert y / 100 / 10 == y / 1000 && y / 100 % 10 == y % 1000 / 100;
    assert y % 100 / 10 == y % 100 / 10;
  }

  /**
   For canonical `'YYYY-MM'` texts, the BINARY order of `ORDER BY start_date`
   is calendar order: one text sorts no later than another exactly when its
   period is not later.
   */
  lemma CanonicalTextOrder(p: Period, q: Period)
    requires Valid(p) && Valid(q)
    ensures LexLe(PeriodText(p), PeriodText(q)) <==> p.year < q.year || (p.year == q.year && p.month <= q.month)
  {
    YearPairs(p.year);
    YearPairs(q.year);
    var tp := "-" + MonthText(p.month);
    var tq := "-" + MonthText(q.month);
    assert PeriodText(p) == Pair(p.year / 100) + (Pair(p.year % 100) + tp);
    assert PeriodText(q) == Pair(q.year / 100) + (Pair(q.year % 100) + tq);
    LexLeAfterHead(Pair(p.year / 100), Pair(q.year / 100), Pair(p.year % 100) + tp, Pair(q.year % 100) + tq);
    LexLeAfterHead(Pair(p.year % 100), Pair(q.year % 100), tp, tq);
    LexLeAfterHead("-", "-", MonthText(p.month), MonthText(q.month));
    PairOrder(p.year / 100, q.year / 100);
    PairOrder(p.year % 100, q.year % 100);
    PairOrder(p.month, q.month);
    assert MonthText(p.month) == Pair(p.month) && MonthText(q.month) == Pair(q.month);
    assert p.year == 100 * (p.year / 100) + p.year % 100;
    assert q.year == 100 * (q.year / 100) + q.year % 100;
  }

  /**
   A one-digit month, which `format_dates` accepts, sorts out of calendar
   order: "2023-9" (September 2023) sorts after "2023-12" (December 2023)
   in descending order, so a job that started in September is listed first.
   */
  lemma OneDigitMonthSortsBehind(j: Job)
    ensures ParsePeriod("2023-9") == Some(Period(2023, 9))
    ensures ParsePeriod("2023-12") == Some(Period(2023, 12))
    ensures var jobs := map[1 := j.(startDate := "2023-12"), 2 := j.(startDate := "2023-9")];
      NewestFirst(jobs, [2, 1]) && !NewestFirst(jobs, [1, 2])
  {
    var sep: string := "2023-9";
    var dec: string := "2023-12";
    assert sep[..4] == "2023" && sep[5..] == "9";
    assert dec[..4] == "2023" && dec[5..] == "12";
    assert sep[1..][1..][1..][1..][1..] == "9" && dec[1..][1..][1..][1..][1..] == "12";
    assert LexLe(dec, sep) && !LexLe(sep, dec);
    var jobs := map[1 := j.(startDate := dec), 2 := j.(startDate := sep)];
    assert jobs[1].startDate == dec && jobs[2].startDate == sep;
    var wrong: seq<int> := [1, 2];
    assert wrong[0] == 1 && wrong[1] == 2;
    assert !LexLe(jobs[wrong[1]].startDate, jobs[wrong[0]].startDate);
  }

  // ---------------------------------------------------------------------------
  // get_all_jobs
  // ---------------------------------------------------------------------------

  /**
   The entry for one job of the query's result: its points are split from
   the concatenation of its point texts in one scan order.
   */
  method BuildEntry(s: Store, id: int, rank: int, dates: string) returns (entry: JobEntry)
    requires id in s.jobs
    ensures entry.dates == dates
    ensures Shows(s, id, rank, entry)
  {
    var job := s.jobs[id];
    var pids := Enumerate(PointsOf(s, id));
    assert IsEnumeration(s, id, pids);
    var points := PointsFrom(s, pids);
    entry := JobEntry(id, job.title, job.company, job.location, dates,
                      points, rank, ResumePoints(points));
  }

  /**
   The position of the first row whose dates do not format, or `|order|` if
   every row formats: where the Python loop over the rows would raise.
   */
  method FirstFailing(s: Store, order: seq<int>) returns (i: int)
    requires forall k :: 0 <= k < |order| ==> order[k] in s.jobs
    ensures 0 <= i <= |order|
    ensures forall k :: 0 <= k < i ==> FormatJob(s.jobs[order[k]]).Success?
    ensures i < |order| ==> FormatJob(s.jobs[order[i]]).Failure?
  {
    i := 0;
    while i < |order|
      invariant 0 <= i <= |order|
      invariant forall k :: 0 <= k < i ==> FormatJob(s.jobs[order[k]]).Success?
    {
      var dates := FormatJob(s.jobs[order[i]]);
      if dates.Failure? {
        return;
      }
      i := i + 1;
    }
  }

  /** The entries for rows in `order` when every row's dates format, ranked 1, 2, 3, ... */
  method BuildEntries(s: Store, order: seq<int>) returns (entries: seq<JobEntry>)
    requires forall k :: 0 <= k < |order| ==> order[k] in s.jobs && FormatJob(s.jobs[order[k]]).Success?
    ensures |entries| == |order|
    ensures forall k :: 0 <= k < |order| ==> entries[k].id == order[k]
    ensures forall k :: 0 <= k < |order| ==> EntryFor(s, order[k], k + 1, entries[k])
  {
    entries := [];
    var i := 0;
    while i < |order|
      invariant 0 <= i <= |order|
      invariant |entries| == i
      invariant forall k :: 0 <= k < i ==> entries[k].id == order[k]
      invariant forall k :: 0 <= k < i ==> EntryFor(s, order[k], k + 1, entries[k])
    {
      var id := order[i];
      var dates := FormatJob(s.jobs[id]);
      var entry := BuildEntry(s, id, i + 1, dates.value);
      EntriesExtend(s, order, entries, entry);
      entries := entries + [entry];
      i := i + 1;
    }
  }

  /** Appending the entry for the next row keeps the entries in step with the rows. */
  lemma EntriesExtend(s: Store, order: seq<int>, entries: seq<JobEntry>, entry: JobEntry)
    requires |entries| < |order|
    requires forall k :: 0 <= k < |entries| ==> entries[k].id == order[k]
    requires forall k :: 0 <= k < |entries| ==> EntryFor(s, order[k], k + 1, entries[k])
    requires EntryFor(s, order[|entries|], |entries| + 1, entry)
    requires entry.id == order[|entries|]
    ensures var next := entries + [entry];
      && (forall k :: 0 <= k < |next| ==> next[k].id == order[k])
      && (forall k :: 0 <= k < |next| ==> EntryFor(s, order[k], k + 1, next[k]))
  {
    var next := entries + [entry];
    forall k | 0 <= k < |next|
      ensures next[k].id == order[k] && EntryFor(s, order[k], k + 1, next[k])
    {
      if k < |entries| {
        assert next[k] == entries[k];
      }
    }
  }

  /**
   `get_all_jobs`. If `format_dates` raises for some row the whole call
   raises, on the first failing row of the scan by descending start text; otherwise the
   result is one admissible listing of the store.
   */
  method GetAllJobs(s: Store) returns (r: Result<seq<JobEntry>, DateError>)
    ensures r.Success? <==> forall id :: id in s.jobs ==> FormatJob(s.jobs[id]).Success?
    ensures r.Success? ==> IsListing(s, r.value)
    ensures r.Failure? ==> exists id :: NewestFailure(s, id) && FormatJob(s.jobs[id]) == Failure(r.error)
  {
    var ids := Enumerate(s.jobs.Keys);
    var order := SortByStart(s.jobs, ids);
    assert forall k :: k in s.jobs ==> k in order;
    var i := FirstFailing(s, order);
    if i < |order| {
      FirstFailureIsNewest(s, order, i);
      return Failure(FormatJob(s.jobs[order[i]]).error);
    }
    var entries := BuildEntries(s, order);
    ListingFromOrder(s, order, entries);
    ListingFormatsAll(s, entries);
    r := Success(entries);
  }

  /**
   Job `id`'s dates do not format, and no other such job has a greater
   `start_date` text: the row `get_all_jobs` raises on, since rows arrive by
   descending start text. For canonical `'YYYY-MM'` texts that is the failing
   job that started last (`CanonicalTextOrder`); a one-digit month breaks this
   (`OneDigitMonthSortsBehind`).
   */
  ghost predicate NewestFailure(s: Store, id: int)
  {
    && id in s.jobs
    && FormatJob(s.jobs[id]).Failure?
    && forall j :: j in s.jobs && FormatJob(s.jobs[j]).Failure? ==> LexLe(s.jobs[j].startDate, s.jobs[id].startDate)
  }

  /** Scanning all jobs by descending start text, the first failing one is a `NewestFailure`. */
  lemma FirstFailureIsNewest(s: Store, order: seq<int>, i: int)
    requires NewestFirst(s.jobs, order)
    requires forall k :: k in s.jobs ==> k in order
    requires 0 <= i < |order|
    requires FormatJob(s.jobs[order[i]]).Failure?
    requires forall k :: 0 <= k < i ==> FormatJob(s.jobs[order[k]]).Success?
    ensures NewestFailure(s, order[i])
  {
    var id := order[i];
    forall j | j in s.jobs && FormatJob(s.jobs[j]).Failure?
      ensures LexLe(s.jobs[j].startDate, s.jobs[id].startDate)
    {
      var m :| 0 <= m < |order| && order[m] == j;
      if m == i {
        LexLeTotal(s.jobs[j].startDate, s.jobs[j].startDate);
      }
    }
  }

  /** A listing exists only when every job's dates format. */
  lemma ListingFormatsAll(s: Store, entries: seq<JobEntry>)
    requires IsListing(s, entries)
    ensures forall id :: id in s.jobs ==> FormatJob(s.jobs[id]).Success?
  {
    forall id | id in s.jobs
      ensures FormatJob(s.jobs[id]).Success?
    {
      var k :| 0 <= k < |entries| && entries[k].id == id;
      assert EntryFor(s, entries[k].id, k + 1, entries[k]);
    }
  }

  /** Entries built one per job in a sorted order of all the job ids form a listing. */
  lemma ListingFromOrder(s: Store, order: seq<int>, entries: seq<JobEntry>)
    requires |order| == |s.jobs| && Distinct(order)
    requires forall k :: k in order <==> k in s.jobs
    requires NewestFirst(s.jobs, order)
    requires |entries| == |order|
    requires forall k :: 0 <= k < |order| ==> entries[k].id == order[k]
    requires forall k :: 0 <= k < |order| ==> EntryFor(s, order[k], k + 1, entries[k])
    ensures IsListing(s, entries)
  {
    assert Ids(entries) == order;
    forall id | id in s.jobs
      ensures exists k :: 0 <= k < |entries| && entries[k].id == id
    {
      var k :| 0 <= k < |order| && order[k] == id;
      assert entries[k].id == id;
    }
  }

  // ---------------------------------------------------------------------------
  // Consequences of the contract
  // ---------------------------------------------------------------------------

  /**
   When a job's point texts are all splittable, its entry shows exactly its
   points, each once, in the order the concatenation visited them.
   */
  lemma EntryShowsJobPoints(s: Store, id: int, points: seq<string>)
    requires ScannedPoints(s, id, points)
    requires SplittableTexts(s, id)
    ensures exists e :: IsEnumeration(s, id, e) && points == TextsOf(s, e)
    ensures |points| == |PointsOf(s, id)|
  {
    var e :| IsEnumeration(s, id, e) && points == PointsFrom(s, e);
    ScanKeepsSplittableTexts(s, id, e);
    EnumerationSize(s, id, e);
  }

  /** Scanning splittable texts in any order, the split gives back exactly those texts. */
  lemma ScanKeepsSplittableTexts(s: Store, id: int, e: seq<int>)
    requires IsEnumeration(s, id, e)
    requires SplittableTexts(s, id)
    ensures PointsFrom(s, e) == TextsOf(s, e)
  {
    var texts := TextsOf(s, e);
    forall i | 0 <= i < |texts|
      ensures Separable(texts[i])
    {
      var k := e[i];
      assert k in s.points && s.points[k].jobId == id;
      assert texts[i] == s.points[k].text;
    }
    if |texts| == 1 {
      EnumerationSize(s, id, e);
      var k := e[0];
      assert k in PointsOf(s, id);
      assert texts[0] == s.points[k].text;
    }
    SplitPointsRoundTrip(texts);
  }

  /** An enumeration of a job's points is as long as the job has points. */
  lemma EnumerationSize(s: Store, id: int, e: seq<int>)
    requires IsEnumeration(s, id, e)
    ensures |e| == |PointsOf(s, id)|
  {
    DistinctCard(e);
    forall k | k in PointsOf(s, id)
      ensures k in e
    {
      assert k in s.points && s.points[k].jobId == id;
    }
    forall k | k in e
      ensures k in PointsOf(s, id)
    {
      var i :| 0 <= i < |e| && e[i] == k;
      assert e[i] in s.points && s.points[e[i]].jobId == id;
    }
    assert (set k | k in e) == PointsOf(s, id);
  }

  /** A list without repeats has as many elements as its set of elements. */
  lemma {:induction false} DistinctCard(e: seq<int>)
    requires Distinct(e)
    ensures |set k | k in e| == |e|
    decreases |e|
  {
    if |e| > 0 {
      DistinctCard(e[1..]);
      assert (set k | k in e) == (set k | k in e[1..]) + {e[0]};
      assert e[0] !in e[1..];
    }
  }

  /**
   In any listing the ranks run 1, 2, 3, ... down the list and the first entry
   is a job whose start text no other job's exceeds.
   */
  lemma ListingRanks(s: Store, entries: seq<JobEntry>)
    requires IsListing(s, entries)
    ensures forall i :: 0 <= i < |entries| ==> entries[i].rank == i + 1 && entries[i].id in s.jobs
    ensures |entries| > 0 ==>
      forall id :: id in s.jobs ==> LexLe(s.jobs[id].startDate, s.jobs[entries[0].id].startDate)
  {
    forall i | 0 <= i < |entries|
      ensures entries[i].rank == i + 1 && entries[i].id in s.jobs
    {
      assert EntryFor(s, entries[i].id, i + 1, entries[i]);
    }
    if |entries| > 0 {
      var ids := Ids(entries);
      forall id | id in s.jobs
        ensures LexLe(s.jobs[id].startDate, s.jobs[entries[0].id].startDate)
      {
        var k :| 0 <= k < |entries| && entries[k].id == id;
        if k == 0 {
          assert ids[0] == id;
          LexLeTotal(s.jobs[id].startDate, s.jobs[id].startDate);
        } else {
          assert ids[k] == id && ids[0] == entries[0].id;
        }
      }
    }
  }

  /** Every entry's resume points are the first of its points, at most three. */
  lemma ListingResumePoints(s: Store, entries: seq<JobEntry>)
    requires IsListing(s, entries)
    ensures forall i :: 0 <= i < |entries| ==>
      |entries[i].resumePoints| <= 3 && entries[i].resumePoints <= entries[i].points
    ensures forall i :: 0 <= i < |entries| && |entries[i].points| >= 3 ==> |entries[i].resumePoints| == 3
  {
    forall i | 0 <= i < |entries|
      ensures |entries[i].resumePoints| <= 3 && entries[i].resumePoints <= entries[i].points
    {
      assert EntryFor(s, entries[i].id, i + 1, entries[i]);
    }
    forall i | 0 <= i < |entries| && |entries[i].points| >= 3
      ensures |entries[i].resumePoints| == 3
    {
      assert EntryFor(s, entries[i].id, i + 1, entries[i]);
    }
  }
}

=== FILE: store.dfy ===
/**
 The two SQLite tables behind the resume, `jobs` and `job_points`, held as
 maps from rowid to row, and every statement that changes them as a pure
 transition from one store to the next. Connections, commits and the
 `CREATE TABLE` statements are not modelled; each transition is one
 committed statement sequence.
 */
module Store {
  import opened Base

  /** A row of `jobs`; `end_date` may be NULL, the other text columns may not. */
  datatype Job = Job(
    title: string,
    company: string,
    location: string,
    startDate: string,
    endDate: Option<string>,
    current: bool)

  /** A row of `job_points`: the bullet text and its possibly NULL `order_num`. */
  datatype JobPoint = JobPoint(jobId: int, text: string, orderNum: Option<int>)

  /** Both tables, keyed by their `INTEGER PRIMARY KEY`. */
  datatype Store = Store(jobs: map<int, Job>, points: map<int, JobPoint>)

  /** A store after an insert, with the rowid SQLite gave the new row. */
  datatype Inserted = Inserted(store: Store, id: int)

  /** The database before `init_db` has put anything in it. */
  const Empty: Store := Store(map[], map[])

  /** The ids of the points that belong to job `jobId`. */
  function PointsOf(s: Store, jobId: int): set<int>
  {
    set k | k in s.points && s.points[k].jobId == jobId
  }

  /**
   Every point belongs to a job that exists. SQLite does not enforce the
   foreign key by default, so this is a property some stores have, not one
   the operations guarantee.
   */
  predicate Intact(s: Store)
  {
    forall k :: k in s.points ==> s.points[k].jobId in s.jobs
  }

  // ---------------------------------------------------------------------------
  // Inserts
  // ---------------------------------------------------------------------------

  /**
   The rowid SQLite gives a row inserted without one into a table whose
   `INTEGER PRIMARY KEY` is not `AUTOINCREMENT`: one more than the largest
   rowid present, or 1 in an empty table.
   */
  function NextRowId(ids: set<int>): (id: int)
    ensures id !in ids
    ensures forall k :: k in ids ==> k < id
    ensures ids == {} ==> id == 1
    ensures ids != {} ==> id - 1 in ids
  {
    if ids == {} then 1 else MaxOf(ids) + 1
  }

  /**
   `add_job`: inserts one job row with the given fields and returns its new
   id; nothing that was there before changes.
   */
  function AddJob(s: Store, title: string, company: string, location: string,
                  startDate: string, endDate: Option<string>, current: bool): (r: Inserted)
    ensures r.id !in s.jobs
    ensures forall k :: k in s.jobs ==> k < r.id
    ensures r.store.jobs.Keys == s.jobs.Keys + {r.id}
    ensures r.store.jobs[r.id] == Job(title, company, location, startDate, endDate, current)
    ensures forall k :: k in s.jobs ==> r.store.jobs[k] == s.jobs[k]
    ensures r.store.points == s.points
  {
    var id := NextRowId(s.jobs.Keys);
    Inserted(s.(jobs := s.jobs[id := Job(title, company, location, startDate, endDate, current)]), id)
  }

  /**
   `add_job_points`: inserts one point row with the given fields. The job it
   names need not exist. Python discards the new rowid; it is returned here
   so that callers can speak about the row.
   */
  function AddJobPoints(s: Store, jobId: int, text: string, orderNum: Option<int>): (r: Inserted)
    ensures r.id !in s.points
    ensures forall k :: k in s.points ==> k < r.id
    ensures r.store.points.Keys == s.points.Keys + {r.id}
    ensures r.store.points[r.id] == JobPoint(jobId, text, orderNum)
    ensures forall k :: k in s.points ==> r.store.points[k] == s.points[k]
    ensures r.store.jobs == s.jobs
  {
    var id := NextRowId(s.points.Keys);
    Inserted(s.(points := s.points[id := JobPoint(jobId, text, orderNum)]), id)
  }

  // ---------------------------------------------------------------------------
  // Deletes
  // ---------------------------------------------------------------------------

  /** `delete_job_point`: removes the point with that id, if there is one, and nothing else. */
  function DeleteJobPoint(s: Store, pointId: int): (r: Store)
    ensures pointId !in r.points
    ensures forall k :: k in r.points <==> k in s.points && k != pointId
    ensures forall k :: k in r.points ==> r.points[k] == s.points[k]
    ensures r.jobs == s.jobs
    ensures pointId !in s.points ==> r == s
  {
    s.(points := s.points - {pointId})
  }

  /**
   `delete_job_and_points`: removes every point whose `job_id` is `jobId`,
   then the job itself; every other job and every point of another job stays.
   */
  function DeleteJobAndPoints(s: Store, jobId: int): (r: Store)
    ensures jobId !in r.jobs
    ensures forall k :: k in r.points ==> r.points[k].jobId != jobId
    ensures forall k :: k in r.jobs <==> k in s.jobs && k != jobId
    ensures forall k :: k in r.jobs ==> r.jobs[k] == s.jobs[k]
    ensures forall k :: k in r.points <==> k in s.points && s.points[k].jobId != jobId
    ensures forall k :: k in r.points ==> r.points[k] == s.points[k]
  {
    var points := map k | k in s.points && s.points[k].jobId != jobId :: s.points[k];
    Store(s.jobs - {jobId}, points)
  }

  // ---------------------------------------------------------------------------
  // get_next_order_num
  // ---------------------------------------------------------------------------

  /** Point `k` belongs to job `jobId` and has a non-NULL `order_num`. */
  predicate Numbered(s: Store, jobId: int, k: int)
  {
    k in s.points && s.points[k].jobId == jobId && s.points[k].orderNum.Some?
  }

  /** The non-NULL `order_num`s of job `jobId`'s points: what `MAX(order_num)` ranges over. */
  function OrderNums(s: Store, jobId: int): set<int>
  {
    set k | k in s.points && Numbered(s, jobId, k) :: s.points[k].orderNum.value
  }

  /**
   `get_next_order_num`: `(MAX(order_num) or 0) + 1` over the job's points.
   `MAX` skips NULLs and is NULL when nothing is left, which gives 1; a
   maximum of 0 also gives 1, the same as `0 + 1`. Otherwise the result is one
   more than the largest order number, so it exceeds all of them.
   */
  function NextOrderNum(s: Store, jobId: int): (n: int)
    ensures forall k :: Numbered(s, jobId, k) ==> s.points[k].orderNum.value < n
    ensures (forall k :: !Numbered(s, jobId, k)) ==> n == 1
    ensures (exists k :: Numbered(s, jobId, k)) ==>
      exists k :: Numbered(s, jobId, k) && s.points[k].orderNum.value == n - 1
  {
    var nums := OrderNums(s, jobId);
    assert forall k :: Numbered(s, jobId, k) ==> s.points[k].orderNum.value in nums;
    if nums == {} then
      1
    else
      MaxOf(nums) + 1
  }

  /**
   Only the points of job `jobId` matter to its next order number: two stores
   that agree on those points agree on it.
   */
  lemma NextOrderNumLocal(s: Store, t: Store, jobId: int)
    requires PointsOf(s, jobId) == PointsOf(t, jobId)
    requires forall k :: k in PointsOf(s, jobId) ==> s.points[k] == t.points[k]
    ensures NextOrderNum(s, jobId) == NextOrderNum(t, jobId)
  {
    assert OrderNums(s, jobId) == OrderNums(t, jobId) by {
      forall v | v in OrderNums(s, jobId)
        ensures v in OrderNums(t, jobId)
      {
        var k :| k in s.points && Numbered(s, jobId, k) && s.points[k].orderNum.value == v;
        assert k in s.points && s.points[k].jobId == jobId;
        assert k in PointsOf(s, jobId);
        assert Numbered(t, jobId, k);
      }
      forall v | v in OrderNums(t, jobId)
        ensures v in OrderNums(s, jobId)
      {
        var k :| k in t.points && Numbered(t, jobId, k) && t.points[k].orderNum.value == v;
        assert k in t.points && t.points[k].jobId == jobId;
        assert k in PointsOf(t, jobId);
        assert Numbered(s, jobId, k);
      }
    }
  }

  /** Adding a point to another job leaves a job's next order number alone. */
  lemma NextOrderNumIgnoresOtherJobs(s: Store, jobId: int, other: int, text: string, orderNum: Option<int>)
    requires other != jobId
    ensures NextOrderNum(AddJobPoints(s, other, text, orderNum).store, jobId) == NextOrderNum(s, jobId)
  {
    var t := AddJobPoints(s, other, text, orderNum).store;
    assert PointsOf(s, jobId) == PointsOf(t, jobId);
    NextOrderNumLocal(s, t, jobId);
  }

  /**
   The way the application appends a bullet: ask for the next order number and
   insert with it. The new point then comes after every other point of the job,
   and the next number after that is one higher.
   */
  lemma AppendedPointIsLast(s: Store, jobId: int, text: string)
    ensures var n := NextOrderNum(s, jobId);
      var r := AddJobPoints(s, jobId, text, Some(n));
      && (forall k :: Numbered(r.store, jobId, k) && k != r.id ==> r.store.points[k].orderNum.value < n)
      && NextOrderNum(r.store, jobId) == n + 1
  {
    var n := NextOrderNum(s, jobId);
    var r := AddJobPoints(s, jobId, text, Some(n));
    var m := NextOrderNum(r.store, jobId);
    assert r.store.points[r.id].orderNum.value < m;
    assert Numbered(r.store, jobId, r.id);
    var k :| Numbered(r.store, jobId, k) && r.store.points[k].orderNum.value == m - 1;
    if k != r.id {
      assert Numbered(s, jobId, k);
    }
  }

  // ---------------------------------------------------------------------------
  // How the operations fit together
  // ---------------------------------------------------------------------------

  /** Deleting a point that was just added gives back the store before the insert. */
  lemma AddThenDeletePoint(s: Store, jobId: int, text: string, orderNum: Option<int>)
    ensures var r := AddJobPoints(s, jobId, text, orderNum);
      DeleteJobPoint(r.store, r.id) == s
  {
    var r := AddJobPoints(s, jobId, text, orderNum);
    assert DeleteJobPoint(r.store, r.id).points == s.points;
  }

  /** Deleting a point twice is the same as deleting it once. */
  lemma DeleteJobPointIdempotent(s: Store, pointId: int)
    ensures DeleteJobPoint(DeleteJobPoint(s, pointId), pointId) == DeleteJobPoint(s, pointId)
  {
  }

  /** Deleting a job twice is the same as deleting it once. */
  lemma DeleteJobAndPointsIdempotent(s: Store, jobId: int)
    ensures DeleteJobAndPoints(DeleteJobAndPoints(s, jobId), jobId) == DeleteJobAndPoints(s, jobId)
  {
    var once := DeleteJobAndPoints(s, jobId);
    assert DeleteJobAndPoints(once, jobId).points == once.points;
    assert DeleteJobAndPoints(once, jobId).jobs == once.jobs;
  }

  /**
   A job added with its bullets and then deleted leaves the store as it was,
   provided no earlier point already carried the new job's id.
   */
  lemma AddJobThenDelete(s: Store, title: string, company: string, location: string,
                         startDate: string, endDate: Option<string>, current: bool,
                         text: string, orderNum: Option<int>)
    requires PointsOf(s, NextRowId(s.jobs.Keys)) == {}
    ensures var j := AddJob(s, title, company, location, startDate, endDate, current);
      var p := AddJobPoints(j.store, j.id, text, orderNum);
      DeleteJobAndPoints(p.store, j.id) == s
  {
    var j := AddJob(s, title, company, location, startDate, endDate, current);
    var p := AddJobPoints(j.store, j.id, text, orderNum);
    var d := DeleteJobAndPoints(p.store, j.id);
    assert d.jobs == s.jobs;
    forall k | k in s.points
      ensures k in d.points
    {
      assert k !in PointsOf(s, j.id);
    }
    assert d.points == s.points;
  }

  /** In an intact store a fresh job id has no points yet. */
  lemma IntactFreshJobHasNoPoints(s: Store)
    requires Intact(s)
    ensures PointsOf(s, NextRowId(s.jobs.Keys)) == {}
  {
    var id := NextRowId(s.jobs.Keys);
    forall k | k in s.points
      ensures k !in PointsOf(s, id)
    {
      assert s.points[k].jobId in s.jobs;
    }
  }

  /**
   Without foreign-key enforcement a point can outlive its job, and a job
   added later may be given the same id and so adopt it; deleting the new job
   then deletes the stray point as well.
   */
  lemma NewJobAdoptsStrayPoint()
    ensures var s := Store(map[], map[7 := JobPoint(1, "stray", Some(1))]);
      var j := AddJob(s, "t", "c", "l", "2020-01", None, false);
      && j.id == 1
      && PointsOf(j.store, j.id) == {7}
      && DeleteJobAndPoints(j.store, j.id).points == map[]
  {
    var s := Store(map[], map[7 := JobPoint(1, "stray", Some(1))]);
    var j := AddJob(s, "t", "c", "l", "2020-01", None, false);
    assert 7 in PointsOf(j.store, j.id);
    assert DeleteJobAndPoints(j.store, j.id).points == map[];
  }

  /** Adding a job or deleting a point or a job keeps an intact store intact. */
  lemma OperationsPreserveIntact(s: Store, title: string, company: string, location: string,
                                 startDate: string, endDate: Option<string>, current: bool,
                                 pointId: int, jobId: int)
    requires Intact(s)
    ensures Intact(AddJob(s, title, company, location, startDate, endDate, current).store)
    ensures Intact(DeleteJobPoint(s, pointId))
    ensures Intact(DeleteJobAndPoints(s, jobId))
  {
  }

  /** Adding a point keeps an intact store intact exactly when its job exists. */
  lemma AddJobPointsIntact(s: Store, jobId: int, text: string, orderNum: Option<int>)
    requires Intact(s)
    ensures Intact(AddJobPoints(s, jobId, text, orderNum).store) <==> jobId in s.jobs
  {
    var r := AddJobPoints(s, jobId, text, orderNum);
    assert r.store.points[r.id].jobId == jobId;
  }

  // ---------------------------------------------------------------------------
  // init_db's sample rows
  // ---------------------------------------------------------------------------

  /** The sample job `init_db` inserts with explicit id 1. */
  const SeedJob: Job := Job("Vice President", "Pathway Ventures", "Fargo, ND", "2023-09", None, true)

  /** The text of the sample point `init_db` gives job 1 with order number 1. */
  const SeedPointText: string :=
    "Reduced time to render user buddy lists by 75% by implementing a prediction algorithm"

  /**
   The sample rows of `init_db`. The job has explicit id 1, so `INSERT OR
   IGNORE` skips it once any job 1 exists; the point names no id, so nothing
   conflicts and a new copy is inserted on every call.
   */
  function InitDb(s: Store): (r: Store)
    ensures 1 in r.jobs
    ensures r.jobs[1] == if 1 in s.jobs then s.jobs[1] else SeedJob
    ensures forall k :: k in r.jobs <==> k in s.jobs || k == 1
    ensures forall k :: k in s.jobs ==> r.jobs[k] == s.jobs[k]
    ensures exists id :: id !in s.points && r.points == s.points[id := JobPoint(1, SeedPointText, Some(1))]
  {
    var jobs := if 1 in s.jobs then s.jobs else s.jobs[1 := SeedJob];
    var p := AddJobPoints(s.(jobs := jobs), 1, SeedPointText, Some(1));
    assert p.store.points == s.points[p.id := JobPoint(1, SeedPointText, Some(1))];
    p.store
  }

  /** Running `init_db` again leaves the jobs as they were but adds one more sample point. */
  lemma InitDbTwice(s: Store)
    ensures InitDb(InitDb(s)).jobs == InitDb(s).jobs
    ensures |InitDb(InitDb(s)).points| == |InitDb(s).points| + 1
  {
    var once := InitDb(s);
    var twice := InitDb(once);
    var id :| id !in once.points && twice.points == once.points[id := JobPoint(1, SeedPointText, Some(1))];
    assert twice.points.Keys == once.points.Keys + {id};
  }

  /**
   On a fresh database `init_db` leaves exactly the sample job under id 1 and
   the sample point under rowid 1, pointing at that job.
   */
  lemma InitDbFresh()
    ensures InitDb(Empty) == Store(map[1 := SeedJob], map[1 := JobPoint(1, SeedPointText, Some(1))])
    ensures Intact(InitDb(Empty))
  {
  }
}

=== FILE: text.dfy ===
/**
 String helpers the job store relies on: SQLite's BINARY collation used by
 `ORDER BY start_date`, and the `'||'` glue that `GROUP_CONCAT(point, '||')`
 puts between bullet points and that Python's `str.split('||')` takes apart.
 */
module Text {

  /** The separator `get_all_jobs` joins and splits bullet points on. */
  const Separator: string := "||"

  // ---------------------------------------------------------------------------
  // BINARY collation
  // ---------------------------------------------------------------------------

  /**
   `a` sorts no later than `b` under SQLite's BINARY collation. SQLite compares
   the UTF-8 bytes with memcmp and, on a common prefix, the shorter string
   first; UTF-8 byte order coincides with code point order, so comparing
   characters is the same thing.
   */
  predicate LexLe(a: string, b: string)
    decreases |a|
  {
    |a| == 0 || (|b| > 0 && (a[0] < b[0] || (a[0] == b[0] && LexLe(a[1..], b[1..]))))
  }

  lemma {:induction false} LexLeTotal(a: string, b: string)
    ensures LexLe(a, b) || LexLe(b, a)
    decreases |a|
  {
    if |a| > 0 && |b| > 0 && a[0] == b[0] {
      LexLeTotal(a[1..], b[1..]);
    }
  }

  lemma {:induction false} LexLeTransitive(a: string, b: string, c: string)
    requires LexLe(a, b) && LexLe(b, c)
    ensures LexLe(a, c)
    decreases |a|
  {
    if |a| > 0 && a[0] == b[0] && b[0] == c[0] {
      LexLeTransitive(a[1..], b[1..], c[1..]);
    }
  }

  lemma {:induction false} LexLeAntisymmetric(a: string, b: string)
    requires LexLe(a, b) && LexLe(b, a)
    ensures a == b
    decreases |a|
  {
    if |a| > 0 {
      LexLeAntisymmetric(a[1..], b[1..]);
      assert a == [a[0]] + a[1..];
      assert b == [b[0]] + b[1..];
    }
  }

  // ---------------------------------------------------------------------------
  // '||' joining and splitting
  // ---------------------------------------------------------------------------

  /** `p` holds no `'||'`. */
  predicate Piece(p: string)
  {
    forall i :: 0 <= i < |p| - 1 ==> !(p[i] == '|' && p[i + 1] == '|')
  }

  /**
   `p` survives being followed by `'||'` and split again: it holds no `'||'`
   and does not end in `'|'` (otherwise `p + "||"` would show a `'||'` one
   character early).
   */
  predicate Separable(p: string)
  {
    Piece(p) && (|p| == 0 || p[|p| - 1] != '|')
  }

  /** What `GROUP_CONCAT(x, '||')` builds from the texts of one group. */
  function Join(xs: seq<string>): string
  {
    if |xs| == 0 then ""
    else if |xs| == 1 then xs[0]
    else xs[0] + Separator + Join(xs[1..])
  }

  /**
   The joined text is empty for no texts; otherwise it starts with the first
   text, and with more than one text `'||'` follows it.
   */
  lemma JoinShape(xs: seq<string>)
    ensures |xs| == 0 ==> Join(xs) == ""
    ensures |xs| >= 1 ==> |xs[0]| <= |Join(xs)| && Join(xs)[..|xs[0]|] == xs[0]
    ensures |xs| >= 2 ==> |xs[0]| + 2 <= |Join(xs)| && Join(xs)[|xs[0]|..|xs[0]| + 2] == Separator
  {
  }

  /**
   Python's `s.split('||')`: cut `s` at every `'||'`, scanning from the left
   and never reusing a character of a separator already cut.
   */
  function Split(s: string): (r: seq<string>)
    ensures |r| >= 1
    decreases |s|
  {
    if |s| >= 2 && s[0] == '|' && s[1] == '|' then
      [""] + Split(s[2..])
    else if |s| == 0 then
      [""]
    else
      var rest := Split(s[1..]);
      [[s[0]] + rest[0]] + rest[1..]
  }

  /**
   Where `split` makes its first cut: the first piece is the text up to the
   first `'||'`, or all of it if there is none.
   */
  lemma {:induction false} SplitFirstPiece(s: string)
    ensures var r := Split(s);
      && (|r| == 1 ==> r[0] == s)
      && (|r| > 1 ==> |r[0]| + 2 <= |s| && s[..|r[0]|] == r[0] && s[|r[0]|..|r[0]| + 2] == Separator)
    decreases |s|
  {
    if |s| >= 2 && s[0] == '|' && s[1] == '|' {
    } else if |s| > 0 {
      SplitFirstPiece(s[1..]);
      var rest := Split(s[1..]);
      assert Split(s) == [[s[0]] + rest[0]] + rest[1..];
      assert s == [s[0]] + s[1..];
    }
  }

  /** A character in front of a piece keeps it a piece unless it makes a `'||'`. */
  lemma ConsPiece(c: char, p: string)
    requires Piece(p)
    requires |p| == 0 || c != '|' || p[0] != '|'
    ensures Piece([c] + p)
    ensures Separable(p) && (|p| > 0 || c != '|') ==> Separable([c] + p)
  {
    var q := [c] + p;
    forall i | 0 <= i < |q| - 1
      ensures !(q[i] == '|' && q[i + 1] == '|')
    {
      if i > 0 {
        assert q[i] == p[i - 1] && q[i + 1] == p[i];
      }
    }
  }

  /** The pieces of a list of texts: all but the last separable, the last free of `'||'`. */
  predicate WellCut(r: seq<string>)
  {
    && |r| >= 1
    && (forall i :: 0 <= i < |r| - 1 ==> Separable(r[i]))
    && Piece(r[|r| - 1])
  }

  /** The first piece after a character that does not start `'||'` is still a proper piece. */
  lemma FirstPieceCut(s: string)
    requires |s| > 0 && !(|s| >= 2 && s[0] == '|' && s[1] == '|')
    requires WellCut(Split(s[1..]))
    ensures var rest := Split(s[1..]);
      && Piece([s[0]] + rest[0])
      && (|rest| > 1 ==> Separable([s[0]] + rest[0]))
  {
    var rest := Split(s[1..]);
    SplitFirstPiece(s[1..]);
    assert Piece(rest[0]);
    if |rest[0]| > 0 {
      assert rest[0][0] == s[1];
    }
    if |rest| > 1 {
      assert Separable(rest[0]);
      if |rest[0]| == 0 {
        assert s[1..][..2] == Separator;
      }
    }
    ConsPiece(s[0], rest[0]);
  }

  /** Replacing the first piece of a well-cut list by another proper piece keeps it well cut. */
  lemma WellCutCons(first: string, rest: seq<string>)
    requires WellCut(rest)
    requires Piece(first) && (|rest| > 1 ==> Separable(first))
    ensures WellCut([first] + rest[1..])
  {
    var r := [first] + rest[1..];
    forall i | 1 <= i < |r|
      ensures r[i] == rest[i]
    {
    }
  }

  /** One step of `SplitPieces`: a character that does not start `'||'` joins the first piece. */
  lemma CutAfterChar(s: string)
    requires |s| > 0 && !(|s| >= 2 && s[0] == '|' && s[1] == '|')
    requires WellCut(Split(s[1..]))
    ensures WellCut(Split(s))
  {
    var rest := Split(s[1..]);
    FirstPieceCut(s);
    WellCutCons([s[0]] + rest[0], rest);
    assert Split(s) == [[s[0]] + rest[0]] + rest[1..];
  }

  /**
   What `split` cuts off: every piece but the last is separable, and the last
   holds no `'||'`.
   */
  lemma {:induction false} SplitPieces(s: string)
    ensures WellCut(Split(s))
    decreases |s|
  {
    if |s| >= 2 && s[0] == '|' && s[1] == '|' {
      SplitPieces(s[2..]);
      assert Split(s)[1..] == Split(s[2..]);
    } else if |s| > 0 {
      SplitPieces(s[1..]);
      CutAfterChar(s);
    }
  }

  /** Putting one more character in front of the first text puts it in front of the join. */
  lemma {:induction false} JoinExtend(c: char, xs: seq<string>)
    requires |xs| >= 1
    ensures Join([[c] + xs[0]] + xs[1..]) == [c] + Join(xs)
  {
    var ys := [[c] + xs[0]] + xs[1..];
    if |xs| > 1 {
      var tail := Join(xs[1..]);
      assert ys[1..] == xs[1..];
      assert Join(ys) == ([c] + xs[0]) + Separator + tail;
      assert Join(xs) == xs[0] + Separator + tail;
      assert ([c] + xs[0]) + Separator + tail == [c] + (xs[0] + Separator + tail);
    }
  }

  /** Splitting and joining again gives back the string, whatever it holds. */
  lemma {:induction false} JoinSplit(s: string)
    ensures Join(Split(s)) == s
    decreases |s|
  {
    if |s| >= 2 && s[0] == '|' && s[1] == '|' {
      var rest := Split(s[2..]);
      JoinSplit(s[2..]);
      assert ([""] + rest)[1..] == rest;
      assert s == Separator + s[2..];
    } else if |s| > 0 {
      var rest := Split(s[1..]);
      JoinSplit(s[1..]);
      JoinExtend(s[0], rest);
      assert s == [s[0]] + s[1..];
    }
  }

  /** A text without `'||'` is not cut at all. */
  lemma {:induction false} SplitPiece(p: string)
    requires Piece(p)
    ensures Split(p) == [p]
    decreases |p|
  {
    if |p| > 0 {
      SplitPiece(p[1..]);
      assert p == [p[0]] + p[1..];
    }
  }

  /** A separable text followed by `'||'` is cut exactly at that separator. */
  lemma {:induction false} SplitSeparated(p: string, rest: string)
    requires Separable(p)
    ensures Split(p + Separator + rest) == [p] + Split(rest)
    decreases |p|
  {
    var s := p + Separator + rest;
    if |p| == 0 {
      assert s[2..] == rest;
    } else {
      assert s[0] == p[0];
      assert s[1..] == p[1..] + Separator + rest;
      SplitSeparated(p[1..], rest);
      assert p == [p[0]] + p[1..];
    }
  }

  /** `'||'`-joined texts split back into themselves when each is separable. */
  lemma {:induction false} SplitJoin(xs: seq<string>)
    requires |xs| >= 1
    requires forall i :: 0 <= i < |xs| - 1 ==> Separable(xs[i])
    requires Piece(xs[|xs| - 1])
    ensures Split(Join(xs)) == xs
    decreases |xs|
  {
    if |xs| == 1 {
      SplitPiece(xs[0]);
    } else {
      SplitJoin(xs[1..]);
      SplitSeparated(xs[0], Join(xs[1..]));
      assert xs == [xs[0]] + xs[1..];
    }
  }
}
